=== FILE: README.md ===
# URLImage core in Dafny

This project models the deterministic core of URLImage, a small Swift library that loads remote images. The library
classifies every transfer that calls back into an image or one of eleven `ImageLoaderError` cases. It keeps one in-flight operation per URL
in its loader table, caches decoded images, and keeps a bounded LRU store of per-URL view models. A SwiftUI view picks
what to show from its view model.

Every component is a pure state-transition model over immutable datatypes, one module per Swift file:

- `Basics` (basics.dfy): `Option`, `Result`, `Url` (identified by its absolute string), `Image` (an opaque token) and `Byte`.
- `LoaderErrors` (loader_error.dfy): the error enum. `description` is a total function. The decimal rendering of status codes has a parser as its partner.
- `LoadOperation` (load_operation.dfy): the outcome of the transport callback, the URL-error table, `main`, `cancel` and the `pause` toggle over the data-task states running, suspended, canceling and completed.
- `CacheManager` (cache_manager.dfy): the name-keyed image cache with its two limits. The platform cache can drop entries at any time; `Evict` models this as a separate step whose choice of entries is free.
- `ImageLoading` (image_loader.dfy): the request table. Its state is the cache, `operations: Url -> OpId`, the pool's queued operations and every operation created so far. There is one function per event: request, pool start, transport callback, cancel, pause, cancel-all and cache eviction. `Replay` runs a sequence of events.
- `ViewModelStore` (view_model_store.dfy): the LRU store. It holds a map and an access order, with eviction from the front. View models are references (`ViewModelRef`), because the Swift store returns objects.
- `URLImageView` (url_image.dfy): the view-model flag transitions and the choices the view makes. The view picks its main slot, its download controls, and whether appearing starts a download.

The image decoder is a function parameter `decode: seq<Byte> -> Option<Image>`. Transport errors, responses and bodies
are inputs of the callback event. Operations have identities in the model so that the properties can name them. The
loader's table itself is keyed by URL only, as in the Swift code.

Two behaviours of the code are modelled as written and exhibited by lemmas:

- A duplicate request for an in-flight URL records nothing about its caller. It only installs a completion block on the existing operation, and the caller's handler is never called (`ImageLoading.DuplicateRequestIsNeverAnswered`). That block removes the URL's entry when the operation finishes. The operation finishes as soon as its entry point returns. So a duplicate that arrives while the operation is still queued removes the entry at its start, while the transfer is still running (`ImageLoading.DuplicateWhileQueuedClearsAtStart`). A duplicate that arrives after the start changes nothing, because a started operation is never started again (`ImageLoading.DuplicateAfterStartNeverClears`).
- A transport callback clears the table entry by URL, not by operation. A late callback from a cancelled operation therefore removes the entry of a newer operation for the same URL (`ImageLoading.StaleCompletionClearsNewerEntry`).

The store's `setCacheLimit` tests the current limit, not the new one, so a negative limit can be installed
(`ViewModelStore.NegativeLimitAccepted`). The Swift eviction loop would then never end on the next miss.
`ViewModelStore.ViewModelFor` therefore requires a non-negative limit for a miss; a hit never evicts and accepts any limit.

## Model

| member | source | states |
|---|---|---|
| `LoaderErrors.Description` | Sources/URLImage/ImageLoaderError.swift:24-49 | Defined for all eleven cases. A wrapped error yields its own localized description. An HTTP error yields the fixed prefix, the decimal status code and a final period. Every fixed message ends in a period. |
| `LoaderErrors.DescriptionsMatchExpectedMessages` | Sources/URLImage/ImageLoaderError.swift:28-47 | Each of the nine payload-free cases has exactly the message the test suite expects. |
| `LoaderErrors.Http404Description` | Tests/URLImageTests/ImageLoaderErrorTests.swift:19 | Status 404 renders as "HTTP error occurred with status code 404." |
| `LoaderErrors.IntToDecimal` | Sources/URLImage/ImageLoaderError.swift:38-39 | Interpolating a status code gives a minus sign exactly for negative codes, then digits that parse back to the code's magnitude. There is no zero padding: the code 0 renders as the single digit 0, and no other rendering starts with a zero digit. |
| `LoaderErrors.DecimalRoundTrip` | Sources/URLImage/ImageLoaderError.swift:38-39 | Parsing the decimal rendering of a natural number gives back that number. |
| `LoaderErrors.HttpDescriptionInjective` | Sources/URLImage/ImageLoaderError.swift:38-39 | Two HTTP-error descriptions are equal only if their status codes are equal, negative codes included. |
| `LoaderErrors.FixedMessagesDistinct` | Sources/URLImage/ImageLoaderError.swift:28-47 | The nine fixed messages are pairwise distinct, and none equals any HTTP-error message. |
| `LoadOperation.ClassifyURLError` | Sources/URLImage/ImageLoadOperation.swift:67-85 | The URL-error table in both directions. Each named code maps to its case; bad and unsupported URL both give invalidURL; exactly the other codes give unknownError. No code gives networkError, httpError or invalidData. |
| `LoadOperation.HandleNetworkError` | Sources/URLImage/ImageLoadOperation.swift:66-89 | A URL error gets its table entry. A non-URL error is wrapped as networkError with that very error; a URL error never is. No transport error yields httpError or invalidData. |
| `LoadOperation.Outcome` | Sources/URLImage/ImageLoadOperation.swift:37-57 | A transport error wins. Otherwise a non-2xx HTTP status gives httpError with that status. The result is success exactly when there is no error, no HTTP failure, and the body exists and decodes. It is then the decoded image; in every other case it is invalidData. |
| `LoadOperation.ErrorTakesPrecedence` | Sources/URLImage/ImageLoadOperation.swift:38-41 | With a transport error, the result does not depend on the response, the body or the decoder. |
| `LoadOperation.HttpFailureSkipsDecode` | Sources/URLImage/ImageLoadOperation.swift:43-48 | With a non-2xx HTTP response, the result is a failure that does not depend on the body or the decoder. |
| `LoadOperation.Main` | Sources/URLImage/ImageLoadOperation.swift:32-64 | A cancelled operation returns with no data task. Otherwise a data task is created and running. |
| `LoadOperation.Cancel` | Sources/URLImage/ImageLoadOperation.swift:102-105 | Marks the operation cancelled. A live data task moves to canceling and a completed one stays completed. Without a task, no task is created. |
| `LoadOperation.Pause` | Sources/URLImage/ImageLoadOperation.swift:107-118 | Running becomes suspended and suspended becomes running, both as iffs. Any other state, or no task, is unchanged. |
| `LoadOperation.PauseInvolution` | Tests/URLImageTests/ImageLoaderTests.swift:114-141 | Two pauses return every task state to where it started, so a running task runs again. |
| `CacheManager.Initial` | Sources/URLImage/ImageCacheManager.swift:25-33 | The defaults are a count limit of 100 and a cost limit of 20 MiB, with an empty cache. |
| `CacheManager.SetConfiguration` | Sources/URLImage/ImageCacheManager.swift:35-46 | If either value is negative, nothing changes. A valid configuration installs exactly both values. Stored images are untouched. |
| `CacheManager.Get` | Sources/URLImage/ImageCacheManager.swift:56-59 | Returns the stored image for a name, or nil when the name holds none. |
| `CacheManager.Add` | Sources/URLImage/ImageCacheManager.swift:48-50 | Afterwards the name yields the new image and every other name yields what it did before. |
| `CacheManager.Remove` | Sources/URLImage/ImageCacheManager.swift:52-54 | Afterwards the name yields nil and every other name is unaffected. |
| `CacheManager.ClearCache` | Sources/URLImage/ImageCacheManager.swift:61-63 | Afterwards every name yields nil, and the limits are kept. |
| `CacheManager.Evict` | Sources/URLImage/ImageCacheManager.swift:28-33 | The platform cache's own eviction only forgets the names it chose and changes nothing else. |
| `CacheManager.RemoveUndoesAdd` | Tests/URLImageTests/ImageCacheManagerTests.swift:41-53 | Removing a name right after storing an image under a previously empty name restores the cache exactly. |
| `CacheManager.AddReplaces` | Sources/URLImage/ImageCacheManager.swift:48-50 | A second add under the same name leaves the same cache as adding only the second image. |
| `CacheManager.EvictionOnlyForgets` | Sources/URLImage/ImageCacheManager.swift:48-59 | After an add and any eviction, the name yields either nothing or the added image. |
| `ImageLoading.Initial` | Sources/URLImage/ImageLoader.swift:17-18 | The loader starts with the given cache, an empty table, nothing queued and no operations created. |
| `ImageLoading.LoadImage` | Sources/URLImage/ImageLoader.swift:20-49 | Cache hit: exactly one success notification with the cached image, and nothing else changes. Duplicate: the table and the pool are unchanged, and there is no notification. The caller is recorded nowhere. The only change is the entry-clearing completion block set on the existing operation. Miss: exactly one new entry and one new queued operation under a fresh id, the count goes up by one, and the other operations are unchanged. |
| `ImageLoading.Run` | Sources/URLImage/ImageLoader.swift:26-48 | Starting an operation the pool was given removes it from the pool and runs its entry point, `LoadOperation.Main`. It gets a running data task unless it was cancelled. A completion block installed by a duplicate request removes the URL's entry at that moment. No other operation changes. |
| `ImageLoading.Deliver` | Sources/URLImage/ImageLoader.swift:33-42 | The caller gets exactly one notification, carrying the outcome. A success is added to the cache under the URL's absolute string; a failure leaves the cache alone. The URL's entry is removed, whichever operation it names. Only this operation's task changes, to completed; its caller and flags stay, and no other operation changes. |
| `ImageLoading.CancelLoad` | Sources/URLImage/ImageLoader.swift:51-54 | Removes only that URL's entry and cancels exactly its operation. Every other entry, every other operation, the pool and the cache are unchanged. Without an entry, no operation changes. |
| `ImageLoading.PauseLoad` | Sources/URLImage/ImageLoader.swift:56-58 | The table, the pool and the cache never change. The URL's operation changes only in its data task, which is toggled. Every other operation is unchanged. |
| `ImageLoading.CancelAllLoads` | Sources/URLImage/ImageLoader.swift:60-63 | The table and the pool are left empty. Every queued operation is cancelled, and changes in nothing else: it keeps having no data task. Operations that have already started are untouched. |
| `ImageLoading.Apply` | Sources/URLImage/ImageLoader.swift:20-63 | Every event preserves the table invariant and invokes at most one completion handler. |
| `ImageLoading.UnknownCallerNeverNotified` | Sources/URLImage/ImageLoader.swift:26-31 | If no operation holds a caller, no later sequence of events notifies that caller, unless it asks again. |
| `ImageLoading.DuplicateRequestIsNeverAnswered` | Sources/URLImage/ImageLoader.swift:26-31 | A duplicate request's handler is not called at once. No later events in which that caller does not ask again ever call it. |
| `ImageLoading.StaleCompletionClearsNewerEntry` | Sources/URLImage/ImageLoader.swift:42 | The sequence is load, start, cancel, load again, then a late cancellation callback. The first caller gets taskCancelled, and the URL's entry disappears while the newer operation is still queued. |
| `ImageLoading.DuplicateWhileQueuedClearsAtStart` | Sources/URLImage/ImageLoader.swift:26-31 | A duplicate request while the operation is queued makes its start remove the URL's entry. The started transfer is running unless it was cancelled. |
| `ImageLoading.StartedNeverRequeued` | Sources/URLImage/ImageLoader.swift:47-48 | An operation that has left the queue is never back in it, whatever events follow. |
| `ImageLoading.DuplicateAfterStartNeverClears` | Sources/URLImage/ImageLoader.swift:26-31 | A duplicate request after the start leaves the table as it is. The operation's completion block can never fire, because the pool never starts it again. |
| `ImageLoading.CancelledBeforeStartNeverCompletes` | Sources/URLImage/ImageLoadOperation.swift:32-35 | An operation cancelled while queued gets no data task when started, and never gets one later. So no completion can come from it. |
| `ImageLoading.PauseLoadTwice` | Tests/URLImageTests/ImageLoaderTests.swift:114-141 | Pausing the same URL twice restores the loader's exact state. |
| `ImageLoading.LoadThenCancelAllCounts` | Tests/URLImageTests/ImageLoaderTests.swift:144-156 | From an empty table and a cache miss, one request gives one entry. Cancelling that URL, or cancelling all, gives zero entries. |
| `ViewModelStore.Initial` | Sources/URLImage/URLImageViewModelStore.swift:13-19 | The store starts empty with a limit of 100. |
| `ViewModelStore.ViewModelFor` | Sources/URLImage/URLImageViewModelStore.swift:29-43 | The store stays valid: its keys are exactly the access order's URLs, each listed once. A hit returns the stored model with the map unchanged; the URL moves last and the others keep their relative order. A miss returns a model never issued before: its reference is the next unused one, and references are never reused. It evicts only from the front of the old order plus the URL, and ends within the limit. |
| `ViewModelStore.MaintainCacheLimit` | Sources/URLImage/URLImageViewModelStore.swift:45-52 | Eviction keeps the store valid. It leaves exactly the most recent URLs, as many as the limit allows. Surviving entries keep their models. |
| `ViewModelStore.MaintainCacheLimitBound` | Sources/URLImage/URLImageViewModelStore.swift:45-52 | After eviction the count is within a non-negative limit. A store already within the limit is unchanged. |
| `ViewModelStore.RemoveFirstIsWithout` | Sources/URLImage/URLImageViewModelStore.swift:31-33 | On a duplicate-free order, removing the first index of a URL equals removing the URL and keeping the others in order. |
| `ViewModelStore.RequestedSurvives` | Sources/URLImage/URLImageViewModelStore.swift:36-52 | With a limit of at least 1, the requested URL is last in the access order. It is still stored under the returned model. |
| `ViewModelStore.LoweredLimitEnforcedAtNextMiss` | Sources/URLImage/URLImageViewModelStore.swift:29-43 | After lowering the limit, a hit keeps the count above the new limit. The next miss brings the count within it. |
| `ViewModelStore.SetCacheLimit` | Sources/URLImage/URLImageViewModelStore.swift:21-27 | If the current limit exceeds 50, the new value is installed, whatever it is. Otherwise the store is unchanged. Entries are never evicted here. |
| `ViewModelStore.NegativeLimitAccepted` | Sources/URLImage/URLImageViewModelStore.swift:21-23 | From the default store, a limit of -1 is installed. |
| `ViewModelStore.LimitFrozenAtOrBelowThreshold` | Sources/URLImage/URLImageViewModelStore.swift:21-27 | Once the limit is 50 or less, no sequence of limit changes has any effect. |
| `ViewModelStore.ClearStore` | Sources/URLImage/URLImageViewModelStore.swift:54-57 | Empties both the map and the access order. Keeps the limit and the reference counter, so models created later are new objects. |
| `URLImageView.ResetProgress` | Sources/URLImage/URLImage.swift:72-75 | Clears the paused flag and zeroes progress. Everything else is kept. |
| `URLImageView.StartDownload` | Sources/URLImage/URLImage.swift:37-40 | Sets loading, clears paused and zeroes progress. The image and the failed flag are untouched. Sends a load request for the URL. |
| `URLImageView.CompleteDownload` | Sources/URLImage/URLImage.swift:44-53 | Loading ends. Success sets the image; failure sets failed and keeps the old image. |
| `URLImageView.PauseDownload` | Sources/URLImage/URLImage.swift:62-65 | Only the paused flag is set. Sends the toggle request. |
| `URLImageView.ResumeDownload` | Sources/URLImage/URLImage.swift:57-60 | Only the paused flag is cleared. Sends the same request as pausing. |
| `URLImageView.StopDownload` | Sources/URLImage/URLImage.swift:67-70 | Only the loading flag changes, to false; paused, failed, progress and the image are kept. Cancels the load. |
| `URLImageView.SelectSlot` | Sources/URLImage/URLImage.swift:92-113 | Each slot holds exactly under its condition. Content when there is an image. Progress when loading with a progress view. The error view when failed and not loading, if one exists. Empty text when idle with no placeholder. Nothing when the fallback chain runs out. |
| `URLImageView.SelectControls` | Sources/URLImage/URLImage.swift:141-165 | Controls appear exactly for manual views without an image: Resume and Stop while loading and paused, Pause and Stop while loading, Download otherwise. |
| `URLImageView.OnAppear` | Sources/URLImage/URLImage.swift:127-131 | Appearing starts a download exactly when the view is automatic and has no image. |
| `URLImageView.FreshViewModel` | Sources/URLImage/URLImage.swift:29-33 | A new view model has no image and is idle. An automatic view starts downloading on appearing, and a manual one offers the download button. The main slot shows the placeholder or the empty text. |
| `URLImageView.ControlsMatchActions` | Sources/URLImage/URLImage.swift:115-125 | Pressing Pause offers Resume, and pressing Resume offers Pause. Pressing Stop offers Download. Pressing Download starts loading. |
| `URLImageView.SuccessShowsContent` | Sources/URLImage/URLImage.swift:93-94 | After a successful completion the view shows the image and offers no controls. |
| `URLImageView.FailureShowsErrorSlot` | Sources/URLImage/URLImage.swift:102-107 | After a failed completion of a view without an image, the view shows the error view, the placeholder, or nothing. |

## Left out

- Progress reporting (Sources/URLImage/ImageLoadOperation.swift:59-60, 91-100): a key-value observer with unguarded floating-point division. The view model's progress is modelled only as reset to zero.
- Worker-pool scheduling (Sources/URLImage/ThreadPool.swift): the concurrency cap of 4 and its configuration belong to the platform queue. The pool is the set of queued, not yet started operations, and `Run` may start any of them.
- NSCache eviction order and cost accounting: `add` passes no cost. Eviction is the free step `CacheManager.Evict`, and the count and cost limits are stored but never enforced by the model.
- Concurrency: data races on the shared table and store, and the main-thread hops of the view model. Every event is one discrete, sequential step.
- SwiftUI rendering: layout, button views, icon and text constants, and the view initialisers (Sources/URLImage/URLImage.swift:170-278). The process-wide singletons and logging are also left out.
- ImageLoading.CancelAllLoads: queued operations are cancelled and dropped from the pool, as if discarded. The platform queue would still start each one, which would return at once and fire any completion block a duplicate request installed. That late entry removal is not modelled for this path.
- ImageLoading.Deliver: the transport callback is enabled whenever the operation's data task exists and is not completed. When the transport actually calls back, including for suspended tasks, is its own business. The transport's own `completed` state is set when it calls back.
- URL identity: a URL is its absolute string, so the table key and the cache key coincide.
- URL error codes: only the eight codes the classifier names are distinguished. Every other code is one `OtherCode`, and raw values are not modelled.
- The model follows the code in three places where a loader of this kind could behave differently:
  - A duplicate request is not attached as a waiter that is answered when the transfer completes. It is dropped.
  - The image cache does not evict by least-recent use and cost as entries are added. Eviction is left to the platform cache.
  - The store's limit guard tests the current limit, not the new one. While the current limit exceeds 50, any new value is installed, negative ones included.

=== FILE: basics.dfy ===
/** Small value types shared by every part of the image-loading model. */
module Basics {

  /** An optional value, standing for a Swift optional. */
  datatype Option<+T> = None | Some(value: T)

  /** The outcome of a load: an image or a classified error. */
  datatype Result<+T, +E> = Success(value: T) | Failure(error: E)

  /** A remote resource locator, identified by its absolute string. */
  datatype Url = Url(absoluteString: string)

  /** A decoded image. Its pixels are not modelled; only its identity is. */
  datatype Image = Image(id: nat)

  /** One byte of a response body. */
  newtype Byte = b: int | 0 <= b < 256
}

=== FILE: cache_manager.dfy ===
/**
 * The decoded-image cache: a name-keyed store with a count limit and a total-cost limit.
 * The platform cache may drop entries at any time; that is the separate step `Evict`.
 */
module CacheManager {
  import opened Basics

  const DefaultCountLimit: int := 100
  const DefaultTotalCostLimit: int := 1024 * 1024 * 20

  /** The configuration a client passes in. */
  datatype CacheConfiguration = CacheConfiguration(cacheCountLimit: int, totalSpaceLimitInBytes: int)

  /** The limits currently installed and the images currently held. */
  datatype ImageCache = ImageCache(countLimit: int, totalCostLimit: int, objects: map<string, Image>)

  function Initial(): (c: ImageCache)
    ensures c.countLimit == 100 && c.totalCostLimit == 20971520
    ensures forall name :: Get(c, name).None?
  {
    ImageCache(DefaultCountLimit, DefaultTotalCostLimit, map[])
  }

  predicate IsValidConfiguration(config: CacheConfiguration) {
    config.cacheCountLimit >= 0 && config.totalSpaceLimitInBytes >= 0
  }

  /** Installs both limits when both are non-negative; otherwise changes nothing. */
  function SetConfiguration(c: ImageCache, config: CacheConfiguration): (r: ImageCache)
    ensures r.objects == c.objects
    ensures config.cacheCountLimit < 0 || config.totalSpaceLimitInBytes < 0 ==> r == c
    ensures IsValidConfiguration(config) ==>
      r.countLimit == config.cacheCountLimit && r.totalCostLimit == config.totalSpaceLimitInBytes
  {
    if !IsValidConfiguration(config) then c
    else c.(countLimit := config.cacheCountLimit, totalCostLimit := config.totalSpaceLimitInBytes)
  }

  function Get(c: ImageCache, name: string): (r: Option<Image>)
    ensures r.Some? <==> name in c.objects
    ensures r.Some? ==> r.value == c.objects[name]
  {
    if name in c.objects then Some(c.objects[name]) else None
  }

  /** Stores an image under a name, replacing any image already stored there. */
  function Add(c: ImageCache, image: Image, name: string): (r: ImageCache)
    ensures Get(r, name) == Some(image)
    ensures forall other :: other != name ==> Get(r, other) == Get(c, other)
    ensures r.countLimit == c.countLimit && r.totalCostLimit == c.totalCostLimit
  {
    c.(objects := c.objects[name := image])
  }

  function Remove(c: ImageCache, name: string): (r: ImageCache)
    ensures Get(r, name).None?
    ensures forall other :: other != name ==> Get(r, other) == Get(c, other)
    ensures r.countLimit == c.countLimit && r.totalCostLimit == c.totalCostLimit
  {
    c.(objects := c.objects - {name})
  }

  function ClearCache(c: ImageCache): (r: ImageCache)
    ensures forall name :: Get(r, name).None?
    ensures r.countLimit == c.countLimit && r.totalCostLimit == c.totalCostLimit
  {
    c.(objects := map[])
  }

  /** The platform cache discarding some entries of its own accord. Its choice is not modelled. */
  function Evict(c: ImageCache, victims: set<string>): (r: ImageCache)
    ensures forall name :: name in victims ==> Get(r, name).None?
    ensures forall name :: name !in victims ==> Get(r, name) == Get(c, name)
    ensures r.countLimit == c.countLimit && r.totalCostLimit == c.totalCostLimit
  {
    c.(objects := c.objects - victims)
  }

  /** Removing a name that was just stored under a fresh name restores the cache exactly. */
  lemma RemoveUndoesAdd(c: ImageCache, image: Image, name: string)
    requires Get(c, name).None?
    ensures Remove(Add(c, image, name), name) == c
  {
    assert Remove(Add(c, image, name), name).objects == c.objects;
  }

  /** A second store under the same name replaces the first. */
  lemma AddReplaces(c: ImageCache, first: Image, second: Image, name: string)
    ensures Add(Add(c, first, name), second, name) == Add(c, second, name)
  {
  }

  /** Whatever the platform cache evicts, a lookup never returns an image that was not stored. */
  lemma EvictionOnlyForgets(c: ImageCache, image: Image, name: string, victims: set<string>)
    ensures Get(Evict(Add(c, image, name), victims), name) in {None, Some(image)}
  {
  }
}

=== FILE: image_loader.dfy ===
/**
 * The request table of the image loader. Each request is answered from the image cache,
 * ignored when its URL is already in flight, or turned into a new operation that is
 * registered under its URL and submitted to the worker pool.
 *
 * Operations carry identities (`OpId`) so that the model can show which operation an
 * event concerns; the table itself, as in the source, is keyed by URL only.
 */
module ImageLoading {
  import opened Basics
  import opened LoaderErrors
  import opened LoadOperation
  import CacheManager

  type OpId = nat

  /** The completion handler a caller passed in, identified by a token. */
  datatype Caller = Caller(id: nat)

  /**
   * A submitted operation together with the handler its closure captured.
   * `clearOnFinish` records that a later duplicate request installed a completion block
   * which removes the URL's table entry when the operation finishes.
   */
  datatype Job = Job(op: Operation, caller: Caller, clearOnFinish: bool)

  /** One invocation of a caller's completion handler. */
  datatype Notification = Notification(caller: Caller, result: LoadResult)

  /**
   * The loader's state: the image cache, the in-flight table, the operations submitted to
   * the pool that have not started yet, and every operation ever created.
   */
  datatype ImageLoader = ImageLoader(
    cache: CacheManager.ImageCache,
    operations: map<Url, OpId>,
    pool: set<OpId>,
    jobs: map<OpId, Job>,
    nextId: OpId)

  /** The state after an event and the completion handlers it invoked, in order. */
  datatype Step = Step(loader: ImageLoader, notifications: seq<Notification>)

  /**
   * Every table entry names an operation for that URL; queued operations exist and have
   * not started; identities below `nextId` are used, the rest are fresh.
   */
  predicate Valid(s: ImageLoader) {
    && (forall u :: u in s.operations ==> s.operations[u] in s.jobs && s.jobs[s.operations[u]].op.url == u)
    && (forall id :: id in s.pool ==> id in s.jobs && s.jobs[id].op.dataTask.None?)
    && (forall id :: id in s.jobs ==> id < s.nextId)
  }

  function Initial(cache: CacheManager.ImageCache): (s: ImageLoader)
    ensures Valid(s)
    ensures |s.operations| == 0 && s.pool == {}
    ensures s.cache == cache && s.jobs == map[] && s.nextId == 0
  {
    ImageLoader(cache, map[], {}, map[], 0)
  }

  /** The transport is still working on the operation's data task. */
  predicate InFlight(op: Operation) {
    op.dataTask.Some? && op.dataTask.value != Completed
  }

  /** A request for an image: cache hit, duplicate of an in-flight URL, or a new operation. */
  function LoadImage(s: ImageLoader, url: Url, caller: Caller): (r: Step)
    ensures Valid(s) ==> Valid(r.loader)
    ensures r.loader.cache == s.cache
    // Cache hit: the caller is answered at once and nothing else happens.
    ensures CacheManager.Get(s.cache, url.absoluteString).Some? ==>
      r.loader == s &&
      r.notifications == [Notification(caller, Success(CacheManager.Get(s.cache, url.absoluteString).value))]
    // Duplicate: table and pool unchanged, and this caller is not answered.
    ensures CacheManager.Get(s.cache, url.absoluteString).None? && url in s.operations ==>
      r.loader.operations == s.operations && r.loader.pool == s.pool && r.notifications == []
    ensures CacheManager.Get(s.cache, url.absoluteString).None? && url in s.operations ==>
      forall id :: id in r.loader.jobs ==> r.loader.jobs[id].caller != caller || (id in s.jobs && s.jobs[id].caller == caller)
    // Duplicate: the only effect is the entry-clearing completion block on the existing operation.
    ensures CacheManager.Get(s.cache, url.absoluteString).None? && url in s.operations && s.operations[url] in s.jobs ==>
      && r.loader.jobs == s.jobs[s.operations[url] := s.jobs[s.operations[url]].(clearOnFinish := true)]
      && r.loader.nextId == s.nextId
    ensures CacheManager.Get(s.cache, url.absoluteString).None? && url in s.operations && s.operations[url] !in s.jobs ==>
      r.loader == s
    // Miss: exactly one new entry and exactly one new submission.
    ensures CacheManager.Get(s.cache, url.absoluteString).None? && url !in s.operations ==>
      && r.notifications == []
      && r.loader.operations == s.operations[url := s.nextId]
      && |r.loader.operations| == |s.operations| + 1
      && r.loader.pool == s.pool + {s.nextId}
      && r.loader.jobs == s.jobs[s.nextId := Job(NewOperation(url), caller, false)]
      && r.loader.nextId == s.nextId + 1
    ensures Valid(s) && CacheManager.Get(s.cache, url.absoluteString).None? && url !in s.operations ==>
      s.nextId !in s.pool && |r.loader.pool| == |s.pool| + 1
  {
    var cached := CacheManager.Get(s.cache, url.absoluteString);
    if cached.Some? then
      Step(s, [Notification(caller, Success(cached.value))])
    else if url in s.operations then
      var id := s.operations[url];
      if id in s.jobs then
        Step(s.(jobs := s.jobs[id := s.jobs[id].(clearOnFinish := true)]), [])
      else
        Step(s, [])
    else
      var id := s.nextId;
      Step(s.(operations := s.operations[url := id],
              pool := s.pool + {id},
              jobs := s.jobs[id := Job(NewOperation(url), caller, false)],
              nextId := id + 1),
           [])
  }

  /**
   * The pool starts a queued operation: its entry point runs (creating and resuming a data
   * task unless it was cancelled) and returns, which finishes the operation and fires any
   * completion block a duplicate request installed. That block clears the entry by URL.
   */
  function Run(s: ImageLoader, id: OpId): (r: ImageLoader)
    requires Valid(s) && id in s.pool
    ensures Valid(r)
    ensures r.pool == s.pool - {id} && r.cache == s.cache
    ensures id in r.jobs && (s.jobs[id].op.isCancelled <==> r.jobs[id].op.dataTask.None?)
    ensures !s.jobs[id].op.isCancelled ==> r.jobs[id].op.dataTask == Some(Running)
    ensures s.jobs[id].clearOnFinish ==> r.operations == s.operations - {s.jobs[id].op.url}
    ensures !s.jobs[id].clearOnFinish ==> r.operations == s.operations
    // Only the started operation changes, and only by running its entry point.
    ensures r.jobs[id] == s.jobs[id].(op := Main(s.jobs[id].op))
    ensures r.jobs.Keys == s.jobs.Keys && r.nextId == s.nextId
    ensures forall j :: j in s.jobs && j != id ==> r.jobs[j] == s.jobs[j]
  {
    var job := s.jobs[id];
    var operations := if job.clearOnFinish then s.operations - {job.op.url} else s.operations;
    s.(operations := operations, pool := s.pool - {id}, jobs := s.jobs[id := job.(op := Main(job.op))])
  }

  /**
   * The transport calls back for an operation's data task. The captured closure stores a
   * decoded image in the cache, passes the result to its caller exactly once, and clears
   * the table entry for the URL, whichever operation that entry currently names.
   */
  function Deliver(s: ImageLoader, id: OpId, error: Option<TransportError>, response: Option<Response>,
                   data: Option<seq<Byte>>, decode: seq<Byte> -> Option<Image>): (r: Step)
    requires Valid(s) && id in s.jobs && InFlight(s.jobs[id].op)
    ensures Valid(r.loader)
    ensures r.notifications == [Notification(s.jobs[id].caller, Outcome(error, response, data, decode))]
    ensures r.loader.operations == s.operations - {s.jobs[id].op.url}
    ensures r.loader.pool == s.pool
    ensures Outcome(error, response, data, decode).Success? ==>
      r.loader.cache == CacheManager.Add(s.cache, Outcome(error, response, data, decode).value, s.jobs[id].op.url.absoluteString)
    ensures Outcome(error, response, data, decode).Failure? ==> r.loader.cache == s.cache
    ensures id in r.loader.jobs && r.loader.jobs[id].op.dataTask == Some(Completed)
    // Only the delivering operation changes: its task completes, its caller and flags stay.
    ensures r.loader.jobs[id] == s.jobs[id].(op := s.jobs[id].op.(dataTask := Some(Completed)))
    ensures r.loader.jobs.Keys == s.jobs.Keys && r.loader.nextId == s.nextId
    ensures forall j :: j in s.jobs && j != id ==> r.loader.jobs[j] == s.jobs[j]
  {
    var job := s.jobs[id];
    var url := job.op.url;
    var result := Outcome(error, response, data, decode);
    var cache := match result
      case Success(image) => CacheManager.Add(s.cache, image, url.absoluteString)
      case Failure(_) => s.cache;
    Step(s.(cache := cache,
            operations := s.operations - {url},
            jobs := s.jobs[id := job.(op := AfterCallback(job.op))]),
         [Notification(job.caller, result)])
  }

  /** Cancels the URL's operation, if any, and removes only that URL's entry. */
  function CancelLoad(s: ImageLoader, url: Url): (r: ImageLoader)
    ensures Valid(s) ==> Valid(r)
    ensures r.operations == s.operations - {url}
    ensures r.pool == s.pool && r.cache == s.cache
    ensures url in s.operations && s.operations[url] in s.jobs ==>
      r.jobs == s.jobs[s.operations[url] := s.jobs[s.operations[url]].(op := Cancel(s.jobs[s.operations[url]].op))]
    ensures !(url in s.operations && s.operations[url] in s.jobs) ==> r.jobs == s.jobs
    ensures r.nextId == s.nextId
  {
    if url in s.operations && s.operations[url] in s.jobs then
      var id := s.operations[url];
      s.(operations := s.operations - {url}, jobs := s.jobs[id := s.jobs[id].(op := Cancel(s.jobs[id].op))])
    else
      s.(operations := s.operations - {url})
  }

  /** Toggles the pause state of the URL's data task; the table is never changed. */
  function PauseLoad(s: ImageLoader, url: Url): (r: ImageLoader)
    ensures Valid(s) ==> Valid(r)
    ensures r.operations == s.operations && r.pool == s.pool && r.cache == s.cache
    ensures url in s.operations && s.operations[url] in s.jobs ==>
      var id := s.operations[url];
      id in r.jobs && r.jobs[id] == s.jobs[id].(op := s.jobs[id].op.(dataTask := Pause(s.jobs[id].op.dataTask)))
    ensures r.jobs.Keys == s.jobs.Keys && r.nextId == s.nextId
    ensures forall id :: id in s.jobs && (url !in s.operations || id != s.operations[url]) ==>
      id in r.jobs && r.jobs[id] == s.jobs[id]
  {
    if url in s.operations && s.operations[url] in s.jobs then
      var id := s.operations[url];
      var job := s.jobs[id];
      s.(jobs := s.jobs[id := job.(op := job.op.(dataTask := Pause(job.op.dataTask)))])
    else
      s
  }

  /**
   * Empties the table and cancels every queued operation, which the pool then discards.
   * Operations that have already started are no longer queued, so their transfers go on.
   */
  function CancelAllLoads(s: ImageLoader): (r: ImageLoader)
    ensures Valid(s) ==> Valid(r)
    ensures |r.operations| == 0 && r.pool == {} && r.cache == s.cache
    ensures r.jobs.Keys == s.jobs.Keys
    ensures forall id :: id in s.pool && id in s.jobs ==> r.jobs[id] == s.jobs[id].(op := Cancel(s.jobs[id].op))
    ensures r.nextId == s.nextId
    ensures forall id :: id in s.jobs && id !in s.pool ==> r.jobs[id] == s.jobs[id]
  {
    var jobs := map id | id in s.jobs ::
      if id in s.pool then s.jobs[id].(op := Cancel(s.jobs[id].op)) else s.jobs[id];
    s.(operations := map[], pool := {}, jobs := jobs)
  }

  /** The platform cache dropping entries of its own accord. */
  function EvictFromCache(s: ImageLoader, victims: set<string>): (r: ImageLoader)
    ensures Valid(s) ==> Valid(r)
    ensures r.operations == s.operations && r.pool == s.pool && r.jobs == s.jobs && r.nextId == s.nextId
    ensures forall name :: name in victims ==> CacheManager.Get(r.cache, name).None?
    ensures forall name :: name !in victims ==> CacheManager.Get(r.cache, name) == CacheManager.Get(s.cache, name)
  {
    s.(cache := CacheManager.Evict(s.cache, victims))
  }

  /** Everything that can happen to the loader, from callers, the pool, the transport and the cache. */
  datatype Event =
    | LoadEvent(url: Url, caller: Caller)
    | RunEvent(id: OpId)
    | DeliverEvent(id: OpId, error: Option<TransportError>, response: Option<Response>, data: Option<seq<Byte>>)
    | CancelEvent(url: Url)
    | PauseEvent(url: Url)
    | CancelAllEvent
    | EvictEvent(victims: set<string>)

  /** One event; a pool start or a transport callback that is not enabled changes nothing. */
  function Apply(s: ImageLoader, e: Event, decode: seq<Byte> -> Option<Image>): (r: Step)
    requires Valid(s)
    ensures Valid(r.loader)
    ensures |r.notifications| <= 1
  {
    match e
    case LoadEvent(url, caller) => LoadImage(s, url, caller)
    case RunEvent(id) => if id in s.pool then Step(Run(s, id), []) else Step(s, [])
    case DeliverEvent(id, error, response, data) =>
      if id in s.jobs && InFlight(s.jobs[id].op) then Deliver(s, id, error, response, data, decode)
      else Step(s, [])
    case CancelEvent(url) => Step(CancelLoad(s, url), [])
    case PauseEvent(url) => Step(PauseLoad(s, url), [])
    case CancelAllEvent => Step(CancelAllLoads(s), [])
    case EvictEvent(victims) => Step(EvictFromCache(s, victims), [])
  }

  /** A sequence of events applied in order, with every notification they produce. */
  function Replay(s: ImageLoader, events: seq<Event>, decode: seq<Byte> -> Option<Image>): (r: Step)
    requires Valid(s)
    ensures Valid(r.loader)
    decreases |events|
  {
    if |events| == 0 then Step(s, [])
    else
      var first := Apply(s, events[0], decode);
      var rest := Replay(first.loader, events[1..], decode);
      Step(rest.loader, first.notifications + rest.notifications)
  }

  /** No operation of the loader will ever answer this caller. */
  predicate Unknown(s: ImageLoader, caller: Caller) {
    forall id :: id in s.jobs ==> s.jobs[id].caller != caller
  }

  predicate LoadsFor(events: seq<Event>, caller: Caller) {
    exists i :: 0 <= i < |events| && events[i].LoadEvent? && events[i].caller == caller
  }

  // One lemma per kind of event, so that each step is checked on its own.

  lemma LoadKeepsUnknown(s: ImageLoader, url: Url, other: Caller, caller: Caller)
    requires Unknown(s, caller) && other != caller
    ensures Unknown(LoadImage(s, url, other).loader, caller)
    ensures forall i :: 0 <= i < |LoadImage(s, url, other).notifications| ==>
      LoadImage(s, url, other).notifications[i].caller != caller
  {
  }

  lemma RunKeepsUnknown(s: ImageLoader, id: OpId, caller: Caller)
    requires Valid(s) && id in s.pool && Unknown(s, caller)
    ensures Unknown(Run(s, id), caller)
  {
  }

  lemma DeliverKeepsUnknown(s: ImageLoader, id: OpId, error: Option<TransportError>, response: Option<Response>,
                            data: Option<seq<Byte>>, decode: seq<Byte> -> Option<Image>, caller: Caller)
    requires Valid(s) && id in s.jobs && InFlight(s.jobs[id].op) && Unknown(s, caller)
    ensures Unknown(Deliver(s, id, error, response, data, decode).loader, caller)
    ensures Deliver(s, id, error, response, data, decode).notifications[0].caller != caller
  {
  }

  lemma CancelKeepsUnknown(s: ImageLoader, url: Url, caller: Caller)
    requires Unknown(s, caller)
    ensures Unknown(CancelLoad(s, url), caller)
  {
  }

  lemma PauseKeepsUnknown(s: ImageLoader, url: Url, caller: Caller)
    requires Unknown(s, caller)
    ensures Unknown(PauseLoad(s, url), caller)
  {
  }

  lemma CancelAllKeepsUnknown(s: ImageLoader, caller: Caller)
    requires Unknown(s, caller)
    ensures Unknown(CancelAllLoads(s), caller)
  {
  }

  /** A single event other than a request from the caller neither answers nor records an unknown caller. */
  lemma ApplyKeepsUnknown(s: ImageLoader, e: Event, decode: seq<Byte> -> Option<Image>, caller: Caller)
    requires Valid(s) && Unknown(s, caller)
    requires !(e.LoadEvent? && e.caller == caller)
    ensures Unknown(Apply(s, e, decode).loader, caller)
    ensures forall i :: 0 <= i < |Apply(s, e, decode).notifications| ==>
      Apply(s, e, decode).notifications[i].caller != caller
  {
    match e
    case LoadEvent(url, other) => LoadKeepsUnknown(s, url, other, caller);
    case RunEvent(id) => if id in s.pool { RunKeepsUnknown(s, id, caller); }
    case DeliverEvent(id, error, response, data) =>
      if id in s.jobs && InFlight(s.jobs[id].op) { DeliverKeepsUnknown(s, id, error, response, data, decode, caller); }
    case CancelEvent(url) => CancelKeepsUnknown(s, url, caller);
    case PauseEvent(url) => PauseKeepsUnknown(s, url, caller);
    case CancelAllEvent => CancelAllKeepsUnknown(s, caller);
    case EvictEvent(victims) =>
  }

  /**
   * A caller the loader holds no operation for is never answered by any later events
   * unless it asks again. This is the fate of a duplicate request's handler.
   */
  lemma {:induction false} UnknownCallerNeverNotified(s: ImageLoader, events: seq<Event>,
                                                     decode: seq<Byte> -> Option<Image>, caller: Caller)
    requires Valid(s) && Unknown(s, caller)
    requires !LoadsFor(events, caller)
    ensures forall i :: 0 <= i < |Replay(s, events, decode).notifications| ==>
      Replay(s, events, decode).notifications[i].caller != caller
    decreases |events|
  {
    if |events| > 0 {
      ApplyKeepsUnknown(s, events[0], decode, caller);
      var first := Apply(s, events[0], decode);
      UnknownCallerNeverNotified(first.loader, events[1..], decode, caller);
    }
  }

  /**
   * A duplicate request from a fresh caller: the caller is not answered now, is recorded
   * nowhere, and so is never answered by any later events in which it does not ask again.
   */
  lemma DuplicateRequestIsNeverAnswered(s: ImageLoader, url: Url, caller: Caller, events: seq<Event>,
                                        decode: seq<Byte> -> Option<Image>)
    requires Valid(s) && Unknown(s, caller)
    requires CacheManager.Get(s.cache, url.absoluteString).None? && url in s.operations
    requires !LoadsFor(events, caller)
    ensures LoadImage(s, url, caller).notifications == []
    ensures forall i :: 0 <= i < |Replay(LoadImage(s, url, caller).loader, events, decode).notifications| ==>
      Replay(LoadImage(s, url, caller).loader, events, decode).notifications[i].caller != caller
  {
    UnknownCallerNeverNotified(LoadImage(s, url, caller).loader, events, decode, caller);
  }

  /**
   * A late callback of a cancelled operation removes the entry of a newer operation for the
   * same URL: load, start, cancel, load again, then the first transfer reports cancellation.
   */
  lemma StaleCompletionClearsNewerEntry(url: Url, first: Caller, second: Caller, decode: seq<Byte> -> Option<Image>)
    ensures
      var s0 := Initial(CacheManager.Initial());
      var s1 := LoadImage(s0, url, first).loader;
      var s2 := Run(s1, 0);
      var s3 := CancelLoad(s2, url);
      var s4 := LoadImage(s3, url, second).loader;
      var s5 := Deliver(s4, 0, Some(URLError(Cancelled)), None, None, decode);
      && s4.operations == map[url := 1] && 1 in s4.pool
      && s5.notifications == [Notification(first, Failure(TaskCancelled))]
      && url !in s5.loader.operations && 1 in s5.loader.pool
  {
    var s0 := Initial(CacheManager.Initial());
    var s1 := LoadImage(s0, url, first).loader;
    assert s1.jobs[0].op == NewOperation(url);
    var s2 := Run(s1, 0);
    assert s2.jobs[0].op.dataTask == Some(Running);
    var s3 := CancelLoad(s2, url);
    assert s3.jobs[0].op.dataTask == Some(Canceling);
    var s4 := LoadImage(s3, url, second).loader;
    assert s4.jobs[0] == s3.jobs[0];
  }

  /**
   * A duplicate request that arrives while the operation is still queued makes its start
   * remove the URL's entry, although the transfer it starts goes on running.
   */
  lemma DuplicateWhileQueuedClearsAtStart(s: ImageLoader, url: Url, caller: Caller)
    requires Valid(s) && CacheManager.Get(s.cache, url.absoluteString).None?
    requires url in s.operations && s.operations[url] in s.pool
    ensures var id := s.operations[url];
      var r := Run(LoadImage(s, url, caller).loader, id);
      && url !in r.operations
      && (!s.jobs[id].op.isCancelled ==> r.jobs[id].op.dataTask == Some(Running))
  {
    var id := s.operations[url];
    var t := LoadImage(s, url, caller).loader;
    assert t.jobs[id].clearOnFinish && t.jobs[id].op == s.jobs[id].op;
  }

  lemma ApplyNeverRequeues(s: ImageLoader, id: OpId, e: Event, decode: seq<Byte> -> Option<Image>)
    requires Valid(s) && id in s.jobs && id !in s.pool
    ensures id in Apply(s, e, decode).loader.jobs && id !in Apply(s, e, decode).loader.pool
  {
    match e
    case LoadEvent(url, caller) =>
    case RunEvent(other) =>
    case DeliverEvent(other, error, response, data) =>
    case CancelEvent(url) =>
    case PauseEvent(url) =>
    case CancelAllEvent =>
    case EvictEvent(victims) =>
  }

  /** An operation that has left the queue never returns to it, so the pool never starts it again. */
  lemma {:induction false} StartedNeverRequeued(s: ImageLoader, id: OpId, events: seq<Event>,
                                               decode: seq<Byte> -> Option<Image>)
    requires Valid(s) && id in s.jobs && id !in s.pool
    ensures id !in Replay(s, events, decode).loader.pool
    decreases |events|
  {
    if |events| > 0 {
      ApplyNeverRequeues(s, id, events[0], decode);
      StartedNeverRequeued(Apply(s, events[0], decode).loader, id, events[1..], decode);
    }
  }

  /**
   * A duplicate request for an operation that has already started leaves the entry in place:
   * its completion block would fire only when the pool starts the operation, which never
   * happens again.
   */
  lemma DuplicateAfterStartNeverClears(s: ImageLoader, url: Url, caller: Caller, events: seq<Event>,
                                       decode: seq<Byte> -> Option<Image>)
    requires Valid(s) && CacheManager.Get(s.cache, url.absoluteString).None?
    requires url in s.operations && s.operations[url] !in s.pool
    ensures LoadImage(s, url, caller).loader.operations == s.operations
    ensures s.operations[url] !in Replay(LoadImage(s, url, caller).loader, events, decode).loader.pool
  {
    StartedNeverRequeued(LoadImage(s, url, caller).loader, s.operations[url], events, decode);
  }

  /** A transport callback for an operation without a live data task is not possible: nothing happens. */
  lemma NoTaskNoCallback(s: ImageLoader, id: OpId, error: Option<TransportError>, response: Option<Response>,
                         data: Option<seq<Byte>>, decode: seq<Byte> -> Option<Image>)
    requires Valid(s) && id in s.jobs && s.jobs[id].op.dataTask.None?
    ensures Apply(s, DeliverEvent(id, error, response, data), decode) == Step(s, [])
  {
  }

  predicate LeftQueueWithoutTask(s: ImageLoader, id: OpId) {
    id in s.jobs && id !in s.pool && s.jobs[id].op.dataTask.None?
  }

  lemma LoadKeepsNoTask(s: ImageLoader, id: OpId, url: Url, caller: Caller)
    requires Valid(s) && LeftQueueWithoutTask(s, id)
    ensures LeftQueueWithoutTask(LoadImage(s, url, caller).loader, id)
  {
  }

  lemma RunKeepsNoTask(s: ImageLoader, id: OpId, other: OpId)
    requires Valid(s) && LeftQueueWithoutTask(s, id) && other in s.pool
    ensures LeftQueueWithoutTask(Run(s, other), id)
  {
  }

  lemma DeliverKeepsNoTask(s: ImageLoader, id: OpId, other: OpId, error: Option<TransportError>, response: Option<Response>,
                           data: Option<seq<Byte>>, decode: seq<Byte> -> Option<Image>)
    requires Valid(s) && LeftQueueWithoutTask(s, id) && other in s.jobs && InFlight(s.jobs[other].op)
    ensures LeftQueueWithoutTask(Deliver(s, other, error, response, data, decode).loader, id)
  {
  }

  lemma CancelKeepsNoTask(s: ImageLoader, id: OpId, url: Url)
    requires LeftQueueWithoutTask(s, id)
    ensures LeftQueueWithoutTask(CancelLoad(s, url), id)
  {
  }

  lemma PauseKeepsNoTask(s: ImageLoader, id: OpId, url: Url)
    requires LeftQueueWithoutTask(s, id)
    ensures LeftQueueWithoutTask(PauseLoad(s, url), id)
  {
  }

  lemma CancelAllKeepsNoTask(s: ImageLoader, id: OpId)
    requires LeftQueueWithoutTask(s, id)
    ensures LeftQueueWithoutTask(CancelAllLoads(s), id)
  {
  }

  lemma ApplyKeepsNoTask(s: ImageLoader, id: OpId, e: Event, decode: seq<Byte> -> Option<Image>)
    requires Valid(s) && LeftQueueWithoutTask(s, id)
    ensures LeftQueueWithoutTask(Apply(s, e, decode).loader, id)
  {
    match e
    case LoadEvent(url, caller) => LoadKeepsNoTask(s, id, url, caller);
    case RunEvent(other) => if other in s.pool { RunKeepsNoTask(s, id, other); }
    case DeliverEvent(other, error, response, data) =>
      if other in s.jobs && InFlight(s.jobs[other].op) { DeliverKeepsNoTask(s, id, other, error, response, data, decode); }
    case CancelEvent(url) => CancelKeepsNoTask(s, id, url);
    case PauseEvent(url) => PauseKeepsNoTask(s, id, url);
    case CancelAllEvent => CancelAllKeepsNoTask(s, id);
    case EvictEvent(victims) =>
  }

  /** An operation that has left the queue without a data task never gets one, whatever happens next. */
  lemma {:induction false} NoTaskIsPermanent(s: ImageLoader, id: OpId, events: seq<Event>, decode: seq<Byte> -> Option<Image>)
    requires Valid(s) && LeftQueueWithoutTask(s, id)
    ensures LeftQueueWithoutTask(Replay(s, events, decode).loader, id)
    decreases |events|
  {
    if |events| > 0 {
      ApplyKeepsNoTask(s, id, events[0], decode);
      NoTaskIsPermanent(Apply(s, events[0], decode).loader, id, events[1..], decode);
    }
  }

  /**
   * An operation cancelled while still queued creates no data task when the pool starts it,
   * so no transport callback, and hence no completion, can ever come from it.
   */
  lemma CancelledBeforeStartNeverCompletes(s: ImageLoader, id: OpId, events: seq<Event>, decode: seq<Byte> -> Option<Image>)
    requires Valid(s) && id in s.pool && s.jobs[id].op.isCancelled
    ensures Run(s, id).jobs[id].op.dataTask.None?
    ensures LeftQueueWithoutTask(Replay(Run(s, id), events, decode).loader, id)
  {
    NoTaskIsPermanent(Run(s, id), id, events, decode);
  }

  /** Pausing a URL twice leaves the loader exactly as it was: a running transfer runs again. */
  lemma PauseLoadTwice(s: ImageLoader, url: Url)
    ensures PauseLoad(PauseLoad(s, url), url) == s
  {
    if url in s.operations && s.operations[url] in s.jobs {
      var id := s.operations[url];
      PauseInvolution(s.jobs[id].op.dataTask);
      assert PauseLoad(PauseLoad(s, url), url).jobs == s.jobs;
    }
  }

  /** The test-suite sequence: an empty table, one request, one entry; cancelling all empties it again. */
  lemma LoadThenCancelAllCounts(s: ImageLoader, url: Url, caller: Caller)
    requires Valid(s) && |s.operations| == 0 && CacheManager.Get(s.cache, url.absoluteString).None?
    ensures |LoadImage(s, url, caller).loader.operations| == 1
    ensures |CancelAllLoads(LoadImage(s, url, caller).loader).operations| == 0
    ensures |CancelLoad(LoadImage(s, url, caller).loader, url).operations| == 0
  {
    var r := LoadImage(s, url, caller).loader;
    assert r.operations == map[url := s.nextId];
  }
}

=== FILE: load_operation.dfy ===
/** One image fetch: starting its data task, classifying the transport callback, pausing and cancelling. */
module LoadOperation {
  import opened Basics
  import opened LoaderErrors

  /**
   * The URL-loading error codes the classifier distinguishes. `OtherCode` stands for every
   * code other than these eight; raw values are not modelled.
   */
  datatype URLErrorCode =
    | NotConnectedToInternet
    | TimedOut
    | CannotConnectToHost
    | NetworkConnectionLostCode
    | Cancelled
    | BadURL
    | UnsupportedURL
    | SecureConnectionFailed
    | OtherCode

  /** The error argument of the transport callback: a URL-loading error or any other error. */
  datatype TransportError = URLError(code: URLErrorCode) | OtherError(error: ForeignError)

  /** The response argument of the transport callback. */
  datatype Response = HTTPResponse(statusCode: int) | NonHTTPResponse

  /** The state of the underlying data task, as the transport reports it. */
  datatype TaskState = Running | Suspended | Canceling | Completed

  /** What the completion handler receives. */
  type LoadResult = Result<Image, ImageLoaderError>

  /** A fetch operation: its URL, whether it was cancelled, and its data task once created. */
  datatype Operation = Operation(url: Url, isCancelled: bool, dataTask: Option<TaskState>)

  function NewOperation(url: Url): (op: Operation)
    ensures op.url == url && !op.isCancelled && op.dataTask.None?
  {
    Operation(url, false, None)
  }

  /** The table from URL-loading error codes to classifications. */
  function ClassifyURLError(code: URLErrorCode): (e: ImageLoaderError)
    ensures e.HasFixedMessage() && e != InvalidData
    ensures e == NetworkUnavailable <==> code == NotConnectedToInternet
    ensures e == Timeout <==> code == TimedOut
    ensures e == ServerUnavailable <==> code == CannotConnectToHost
    ensures e == NetworkConnectionLost <==> code == NetworkConnectionLostCode
    ensures e == TaskCancelled <==> code == Cancelled
    ensures e == InvalidURL <==> code == BadURL || code == UnsupportedURL
    ensures e == SecurityError <==> code == SecureConnectionFailed
    ensures e == UnknownError <==> code.OtherCode?
  {
    match code
    case NotConnectedToInternet => NetworkUnavailable
    case TimedOut => Timeout
    case CannotConnectToHost => ServerUnavailable
    case NetworkConnectionLostCode => NetworkConnectionLost
    case Cancelled => TaskCancelled
    case BadURL => InvalidURL
    case UnsupportedURL => InvalidURL
    case SecureConnectionFailed => SecurityError
    case OtherCode => UnknownError
  }

  /** Classification of a transport error: URL-loading errors by table, anything else wrapped. */
  function HandleNetworkError(err: TransportError): (e: ImageLoaderError)
    ensures e.NetworkError? <==> err.OtherError?
    ensures err.OtherError? ==> e.cause == err.error
    ensures !e.HttpError? && e != InvalidData
    ensures err.URLError? ==> e == ClassifyURLError(err.code)
  {
    match err
    case URLError(code) => ClassifyURLError(code)
    case OtherError(foreign) => NetworkError(foreign)
  }

  predicate IsSuccessStatus(statusCode: int) {
    200 <= statusCode <= 299
  }

  /** The response is an HTTP response whose status is outside 200...299. */
  predicate IsHttpFailure(response: Option<Response>) {
    response.Some? && response.value.HTTPResponse? && !IsSuccessStatus(response.value.statusCode)
  }

  /** The body is present and decodes to an image. */
  predicate Decodes(data: Option<seq<Byte>>, decode: seq<Byte> -> Option<Image>) {
    data.Some? && decode(data.value).Some?
  }

  /**
   * The single result the transport callback hands to the completion handler.
   * `decode` stands for the platform image decoder.
   */
  function Outcome(error: Option<TransportError>, response: Option<Response>,
                   data: Option<seq<Byte>>, decode: seq<Byte> -> Option<Image>): (r: LoadResult)
    ensures error.Some? ==> r == Failure(HandleNetworkError(error.value))
    ensures error.None? && IsHttpFailure(response) ==> r == Failure(HttpError(response.value.statusCode))
    ensures r.Success? <==> error.None? && !IsHttpFailure(response) && Decodes(data, decode)
    ensures r.Success? ==> data.Some? && decode(data.value) == Some(r.value)
    ensures r == Failure(InvalidData) <==> error.None? && !IsHttpFailure(response) && !Decodes(data, decode)
  {
    if error.Some? then Failure(HandleNetworkError(error.value))
    else if response.Some? && response.value.HTTPResponse? && !IsSuccessStatus(response.value.statusCode) then
      Failure(HttpError(response.value.statusCode))
    else if data.None? then Failure(InvalidData)
    else
      match decode(data.value)
      case None => Failure(InvalidData)
      case Some(image) => Success(image)
  }

  /** A transport error decides the result alone: response, body and decoder are never consulted. */
  lemma ErrorTakesPrecedence(error: TransportError,
                             response1: Option<Response>, data1: Option<seq<Byte>>, decode1: seq<Byte> -> Option<Image>,
                             response2: Option<Response>, data2: Option<seq<Byte>>, decode2: seq<Byte> -> Option<Image>)
    ensures Outcome(Some(error), response1, data1, decode1) == Outcome(Some(error), response2, data2, decode2)
  {
  }

  /** A non-2xx HTTP status decides the result alone: the body is never decoded. */
  lemma HttpFailureSkipsDecode(response: Option<Response>,
                               data1: Option<seq<Byte>>, decode1: seq<Byte> -> Option<Image>,
                               data2: Option<seq<Byte>>, decode2: seq<Byte> -> Option<Image>)
    requires IsHttpFailure(response)
    ensures Outcome(None, response, data1, decode1) == Outcome(None, response, data2, decode2)
    ensures Outcome(None, response, data1, decode1).Failure?
  {
  }

  /**
   * The operation's entry point, run by the queue. A cancelled operation returns at once:
   * no data task and therefore no completion. Otherwise a data task is created and resumed.
   */
  function Main(op: Operation): (r: Operation)
    requires op.dataTask.None?
    ensures r.url == op.url && r.isCancelled == op.isCancelled
    ensures op.isCancelled <==> r.dataTask.None?
    ensures !op.isCancelled ==> r.dataTask == Some(Running)
  {
    if op.isCancelled then op
    else op.(dataTask := Some(Running))
  }

  /** Cancelling the data task: a live transfer moves to `Canceling`; a finished one stays finished. */
  function CancelTask(t: TaskState): (r: TaskState)
    ensures t == Completed <==> r == Completed
    ensures t != Completed ==> r == Canceling
  {
    if t == Completed then Completed else Canceling
  }

  /** Cancelling the operation marks it cancelled and cancels its data task if there is one. */
  function Cancel(op: Operation): (r: Operation)
    ensures r.isCancelled && r.url == op.url
    ensures r.dataTask.None? <==> op.dataTask.None?
    ensures op.dataTask.Some? && op.dataTask.value != Completed ==> r.dataTask == Some(Canceling)
    ensures op.dataTask == Some(Completed) ==> r.dataTask == op.dataTask
  {
    Operation(op.url, true, if op.dataTask.Some? then Some(CancelTask(op.dataTask.value)) else None)
  }

  /** The pause toggle: suspends a running task, resumes a suspended one, and ignores anything else. */
  function Pause(task: Option<TaskState>): (r: Option<TaskState>)
    ensures task == Some(Running) <==> r == Some(Suspended)
    ensures task == Some(Suspended) <==> r == Some(Running)
    ensures task != Some(Running) && task != Some(Suspended) ==> r == task
  {
    match task
    case Some(Running) => Some(Suspended)
    case Some(Suspended) => Some(Running)
    case _ => task
  }

  /** Two pauses return any task to the state it started in; in particular running stays running. */
  lemma PauseInvolution(task: Option<TaskState>)
    ensures Pause(Pause(task)) == task
  {
  }

  /** The operation after the transport has called back: its data task is finished. */
  function AfterCallback(op: Operation): (r: Operation)
    requires op.dataTask.Some? && op.dataTask.value != Completed
    ensures r.url == op.url && r.isCancelled == op.isCancelled
    ensures r.dataTask == Some(Completed)
  {
    op.(dataTask := Some(Completed))
  }
}

=== FILE: loader_error.dfy ===
/** The error taxonomy of the image loader and its human-readable descriptions. */
module LoaderErrors {

  /** An error that is not a URL-loading error; only its localized description is observable. */
  datatype ForeignError = ForeignError(localizedDescription: string)

  /** The eleven classifications a failed load can carry. */
  datatype ImageLoaderError =
    | NetworkError(cause: ForeignError)
    | NetworkUnavailable
    | NetworkConnectionLost
    | ServerUnavailable
    | Timeout
    | InvalidURL
    | HttpError(statusCode: int)
    | InvalidData
    | TaskCancelled
    | SecurityError
    | UnknownError
  {
    /** The nine cases without a payload, whose description is a fixed message. */
    predicate HasFixedMessage() {
      !NetworkError? && !HttpError?
    }
  }

  const HttpPrefix: string := "HTTP error occurred with status code "

  /** The fixed messages of the payload-free cases. */
  const NetworkUnavailableMessage: string := "Network is unavailable. Please check your internet connection."
  const NetworkConnectionLostMessage: string := "Network is unavailable. Network connection lost."
  const ServerUnavailableMessage: string := "Server is unavailable. Please try again later."
  const TimeoutMessage: string := "The request timed out. Please try again."
  const InvalidURLMessage: string := "The URL provided is invalid."
  const InvalidDataMessage: string := "Received invalid data."
  const TaskCancelledMessage: string := "The image loading task was cancelled."
  const SecurityErrorMessage: string := "A security error occurred. Please check your network settings."
  const UnknownErrorMessage: string := "An unknown error occurred. Please try again."


  /** The decimal digit character for a digit value. */
  function DigitChar(d: nat): (c: char)
    requires d < 10
    ensures '0' <= c <= '9'
    ensures c as int - '0' as int == d
  {
    "0123456789"[d]
  }

  predicate IsDigit(c: char) {
    '0' <= c <= '9'
  }

  predicate AllDigits(s: string) {
    forall i :: 0 <= i < |s| ==> IsDigit(s[i])
  }

  /** The value a string of decimal digits denotes (the partner of NatToDecimal). */
  function DecimalValue(s: string): nat
    requires AllDigits(s)
  {
    if |s| == 0 then 0
    else DecimalValue(s[..|s| - 1]) * 10 + (s[|s| - 1] as int - '0' as int)
  }

  /** The decimal rendering of a natural number, most significant digit first, no leading zero. */
  function NatToDecimal(n: nat): (s: string)
    ensures |s| >= 1
    ensures AllDigits(s)
    ensures s[0] == '0' ==> n == 0
    ensures n == 0 ==> s == "0"
    ensures IsDigit(s[|s| - 1])
  {
    if n < 10 then [DigitChar(n)]
    else NatToDecimal(n / 10) + [DigitChar(n % 10)]
  }

  /** Parsing the rendering of n gives back n. */
  lemma {:induction false} DecimalRoundTrip(n: nat)
    ensures DecimalValue(NatToDecimal(n)) == n
  {
    var s := NatToDecimal(n);
    if n >= 10 {
      DecimalRoundTrip(n / 10);
      assert s[..|s| - 1] == NatToDecimal(n / 10);
    }
  }

  /** The rendering of a Swift integer as string interpolation prints it: a minus sign for negatives. */
  function IntToDecimal(n: int): (s: string)
    ensures |s| >= 1
    ensures n < 0 <==> s[0] == '-'
    ensures IsDigit(s[|s| - 1])
    ensures n >= 0 ==> AllDigits(s)
    ensures n < 0 ==> AllDigits(s[1..]) && DecimalValue(s[1..]) == -n
    ensures n >= 0 ==> DecimalValue(s) == n
    // No padding: the first digit is zero only when the value is.
    ensures n >= 0 ==> (s[0] == '0' ==> n == 0)
    ensures n == 0 ==> s == "0"
    ensures n < 0 ==> |s| >= 2 && s[1] != '0'
  {
    if n < 0 then
      DecimalRoundTrip(-n);
      assert ("-" + NatToDecimal(-n))[1..] == NatToDecimal(-n);
      "-" + NatToDecimal(-n)
    else
      DecimalRoundTrip(n);
      NatToDecimal(n)
  }

  /** Distinct integers render differently. */
  lemma IntToDecimalInjective(a: int, b: int)
    requires IntToDecimal(a) == IntToDecimal(b)
    ensures a == b
  {
  }

  /** The message of an HTTP error: the fixed prefix, the status code in decimal, a period. */
  function HttpDescription(code: int): (s: string)
    ensures |s| > |HttpPrefix| && s[..|HttpPrefix|] == HttpPrefix && s[|s| - 1] == '.'
    ensures s[|HttpPrefix|..|s| - 1] == IntToDecimal(code)
    ensures IsDigit(s[|s| - 2])
  {
    var digits := IntToDecimal(code);
    var s := HttpPrefix + digits + ".";
    assert s[..|HttpPrefix|] == HttpPrefix;
    assert s[|HttpPrefix|..|s| - 1] == digits;
    assert s[|s| - 2] == digits[|digits| - 1];
    s
  }

  /** The user-facing description of every error classification. */
  function Description(e: ImageLoaderError): (s: string)
    ensures e.NetworkError? ==> s == e.cause.localizedDescription
    ensures e.HttpError? ==> |s| > |HttpPrefix| && s[..|HttpPrefix|] == HttpPrefix && s[|s| - 1] == '.'
    ensures e.HttpError? ==> s[|HttpPrefix|..|s| - 1] == IntToDecimal(e.statusCode)
    ensures e.HasFixedMessage() ==> |s| > 0 && s[|s| - 1] == '.'
  {
    match e
    case NetworkError(cause) => cause.localizedDescription
    case NetworkUnavailable => NetworkUnavailableMessage
    case NetworkConnectionLost => NetworkConnectionLostMessage
    case ServerUnavailable => ServerUnavailableMessage
    case Timeout => TimeoutMessage
    case InvalidURL => InvalidURLMessage
    case HttpError(code) => HttpDescription(code)
    case InvalidData => InvalidDataMessage
    case TaskCancelled => TaskCancelledMessage
    case SecurityError => SecurityErrorMessage
    case UnknownError => UnknownErrorMessage
  }

  /** The exact messages the test suite expects for the nine payload-free cases. */
  lemma DescriptionsMatchExpectedMessages()
    ensures Description(NetworkUnavailable) == "Network is unavailable. Please check your internet connection."
    ensures Description(NetworkConnectionLost) == "Network is unavailable. Network connection lost."
    ensures Description(ServerUnavailable) == "Server is unavailable. Please try again later."
    ensures Description(Timeout) == "The request timed out. Please try again."
    ensures Description(InvalidURL) == "The URL provided is invalid."
    ensures Description(InvalidData) == "Received invalid data."
    ensures Description(TaskCancelled) == "The image loading task was cancelled."
    ensures Description(SecurityError) == "A security error occurred. Please check your network settings."
    ensures Description(UnknownError) == "An unknown error occurred. Please try again."
  {
  }

  /** The test suite's HTTP example: status 404 renders as its three digits. */
  lemma Http404Description()
    ensures Description(HttpError(404)) == "HTTP error occurred with status code 404."
  {
    Decimal404();
    assert Description(HttpError(404)) == HttpPrefix + "404" + ".";
  }

  lemma Decimal404()
    ensures IntToDecimal(404) == "404"
  {
    assert NatToDecimal(4) == "4";
    assert NatToDecimal(40) == NatToDecimal(4) + [DigitChar(0)] == "40";
    assert NatToDecimal(404) == NatToDecimal(40) + [DigitChar(4)] == "404";
  }

  /** An HTTP error's message determines its status code. */
  lemma {:induction false} HttpDescriptionInjective(a: int, b: int)
    requires Description(HttpError(a)) == Description(HttpError(b))
    ensures a == b
  {
    var sa, sb := Description(HttpError(a)), Description(HttpError(b));
    assert IntToDecimal(a) == sa[|HttpPrefix|..|sa| - 1];
    assert IntToDecimal(b) == sb[|HttpPrefix|..|sb| - 1];
    IntToDecimalInjective(a, b);
  }

  /** Length and next-to-last character of each fixed message: enough to tell them apart. */
  function FixedShape(e: ImageLoaderError): (int, char)
    requires e.HasFixedMessage()
  {
    match e
    case NetworkUnavailable => (62, 'n')
    case NetworkConnectionLost => (48, 't')
    case ServerUnavailable => (46, 'r')
    case Timeout => (40, 'n')
    case InvalidURL => (28, 'd')
    case InvalidData => (22, 'a')
    case TaskCancelled => (37, 'd')
    case SecurityError => (62, 's')
    case UnknownError => (44, 'n')
  }

  lemma FixedShapeOfDescription(e: ImageLoaderError)
    requires e.HasFixedMessage()
    ensures |Description(e)| == FixedShape(e).0 && Description(e)[|Description(e)| - 2] == FixedShape(e).1
  {
    match e
    case NetworkUnavailable =>
    case NetworkConnectionLost =>
    case ServerUnavailable =>
    case Timeout =>
    case InvalidURL =>
    case InvalidData =>
    case TaskCancelled =>
    case SecurityError =>
    case UnknownError =>
  }

  /** No two payload-free cases share a message, and none of them reads like an HTTP error. */
  lemma FixedMessagesDistinct(e1: ImageLoaderError, e2: ImageLoaderError)
    requires e1.HasFixedMessage()
    ensures e2.HasFixedMessage() && e1 != e2 ==> Description(e1) != Description(e2)
    ensures e2.HttpError? ==> Description(e1) != Description(e2)
  {
    if e2.HasFixedMessage() && e1 != e2 {
      FixedShapeOfDescription(e1);
      FixedShapeOfDescription(e2);
      FixedShapeInjective(e1, e2);
    }
    if e2.HttpError? {
      FixedIsNotHttp(e1, e2.statusCode);
    }
  }

  lemma FixedShapeInjective(e1: ImageLoaderError, e2: ImageLoaderError)
    requires e1.HasFixedMessage() && e2.HasFixedMessage() && e1 != e2
    ensures FixedShape(e1) != FixedShape(e2)
  {
  }

  /** An HTTP message ends in a digit and a period; no fixed message does. */
  lemma FixedIsNotHttp(e: ImageLoaderError, code: int)
    requires e.HasFixedMessage()
    ensures Description(e) != HttpDescription(code)
  {
    var d, h := Description(e), HttpDescription(code);
    FixedShapeOfDescription(e);
    assert !IsDigit(d[|d| - 2]);
    assert IsDigit(h[|h| - 2]);
  }
}

=== FILE: url_image.dfy ===
/**
 * The per-URL view model and the pure choices the image view makes from it: which slot to
 * show, which download controls to offer, and whether appearing starts a download.
 */
module URLImageView {
  import opened Basics
  import opened LoaderErrors

  /** The observable state of one image view. Progress is reported by the transport and not modelled beyond its reset. */
  datatype ViewModel = ViewModel(image: Option<Image>, progress: real, isLoading: bool, isFailed: bool, isPaused: bool)

  const DefaultViewModel: ViewModel := ViewModel(None, 0.0, false, false, false)

  /** The request a view-model action sends to the image loader. */
  datatype LoaderCall = LoadImage(url: Url) | PauseLoad(url: Url) | CancelLoad(url: Url)

  /** A view-model action: the new state and the loader request it makes. */
  datatype Action = Action(model: ViewModel, call: LoaderCall)

  function ResetProgress(vm: ViewModel): (r: ViewModel)
    ensures !r.isPaused && r.progress == 0.0
    ensures r.image == vm.image && r.isLoading == vm.isLoading && r.isFailed == vm.isFailed
  {
    vm.(isPaused := false, progress := 0.0)
  }

  /** Resets progress, marks the view as loading and asks the loader for the image. */
  function StartDownload(vm: ViewModel, url: Url): (r: Action)
    ensures r.model.isLoading && !r.model.isPaused && r.model.progress == 0.0
    ensures r.model.image == vm.image && r.model.isFailed == vm.isFailed
    ensures r.call == LoadImage(url)
  {
    Action(ResetProgress(vm).(isLoading := true), LoadImage(url))
  }

  /** The loader's answer: loading ends; success shows the image, failure marks the view failed. */
  function CompleteDownload(vm: ViewModel, result: Result<Image, ImageLoaderError>): (r: ViewModel)
    ensures !r.isLoading && r.isPaused == vm.isPaused && r.progress == vm.progress
    ensures result.Success? ==> r.image == Some(result.value) && r.isFailed == vm.isFailed
    ensures result.Failure? ==> r.isFailed && r.image == vm.image
  {
    match result
    case Success(image) => vm.(isLoading := false, image := Some(image))
    case Failure(_) => vm.(isLoading := false, isFailed := true)
  }

  function PauseDownload(vm: ViewModel, url: Url): (r: Action)
    ensures r.model == vm.(isPaused := true)
    ensures r.call == PauseLoad(url)
  {
    Action(vm.(isPaused := true), PauseLoad(url))
  }

  /** Resuming sends the same toggle request as pausing; only the local flag differs. */
  function ResumeDownload(vm: ViewModel, url: Url): (r: Action)
    ensures r.model == vm.(isPaused := false)
    ensures r.call == PauseDownload(vm, url).call
  {
    Action(vm.(isPaused := false), PauseLoad(url))
  }

  /** Stopping ends loading locally and cancels the load; the other flags and the image stay. */
  function StopDownload(vm: ViewModel, url: Url): (r: Action)
    ensures r.model == vm.(isLoading := false)
    ensures r.call == CancelLoad(url)
  {
    Action(vm.(isLoading := false), CancelLoad(url))
  }

  /** Which optional views the client supplied. */
  datatype Slots = Slots(hasProgressView: bool, hasPlaceholder: bool, hasErrorPlaceholder: bool)

  /** What the view shows in its main slot. */
  datatype Slot =
    | ContentSlot(image: Image)
    | ProgressSlot(progress: real)
    | PlaceholderSlot
    | ErrorSlot
    | EmptyText
    | NothingShown

  /** The main-slot choice: image, else loading, else failed, else idle, each with its fallbacks. */
  function SelectSlot(vm: ViewModel, slots: Slots): (r: Slot)
    ensures r.ContentSlot? <==> vm.image.Some?
    ensures r.ContentSlot? ==> r.image == vm.image.value
    ensures r.ProgressSlot? <==> vm.image.None? && vm.isLoading && slots.hasProgressView
    ensures r.ProgressSlot? ==> r.progress == vm.progress
    ensures r == ErrorSlot <==> vm.image.None? && !vm.isLoading && vm.isFailed && slots.hasErrorPlaceholder
    ensures r == EmptyText <==> vm.image.None? && !vm.isLoading && !vm.isFailed && !slots.hasPlaceholder
    ensures r == NothingShown <==>
      (vm.image.None? && !slots.hasPlaceholder &&
       ((vm.isLoading && !slots.hasProgressView) || (!vm.isLoading && vm.isFailed && !slots.hasErrorPlaceholder)))
  {
    if vm.image.Some? then ContentSlot(vm.image.value)
    else if vm.isLoading then
      if slots.hasProgressView then ProgressSlot(vm.progress)
      else if slots.hasPlaceholder then PlaceholderSlot
      else NothingShown
    else if vm.isFailed then
      if slots.hasErrorPlaceholder then ErrorSlot
      else if slots.hasPlaceholder then PlaceholderSlot
      else NothingShown
    else if slots.hasPlaceholder then PlaceholderSlot
    else EmptyText
  }

  /** The download controls the view offers. */
  datatype Controls = NoControls | ResumeAndStop | PauseAndStop | DownloadOnly

  /** Controls appear only for manual downloads without an image; their buttons follow the loading and paused flags. */
  function SelectControls(automaticDownload: bool, vm: ViewModel): (r: Controls)
    ensures r != NoControls <==> !automaticDownload && vm.image.None?
    ensures r == ResumeAndStop <==> !automaticDownload && vm.image.None? && vm.isLoading && vm.isPaused
    ensures r == PauseAndStop <==> !automaticDownload && vm.image.None? && vm.isLoading && !vm.isPaused
    ensures r == DownloadOnly <==> !automaticDownload && vm.image.None? && !vm.isLoading
  {
    if automaticDownload || vm.image.Some? then NoControls
    else if vm.isLoading then
      if vm.isPaused then ResumeAndStop else PauseAndStop
    else DownloadOnly
  }

  /** Appearing starts a download only for automatic views that have no image yet. */
  function OnAppear(automaticDownload: bool, vm: ViewModel, url: Url): (r: Option<Action>)
    ensures r.Some? <==> automaticDownload && vm.image.None?
    ensures r.Some? ==> r.value == StartDownload(vm, url)
  {
    if automaticDownload && vm.image.None? then Some(StartDownload(vm, url)) else None
  }

  /** Pressing the offered button: Download starts, Pause pauses, Resume resumes. */
  lemma ControlsMatchActions(vm: ViewModel, url: Url)
    requires vm.image.None?
    ensures SelectControls(false, vm) == DownloadOnly ==> StartDownload(vm, url).model.isLoading
    ensures SelectControls(false, vm) == PauseAndStop ==>
      SelectControls(false, PauseDownload(vm, url).model) == ResumeAndStop
    ensures SelectControls(false, vm) == ResumeAndStop ==>
      SelectControls(false, ResumeDownload(vm, url).model) == PauseAndStop
    ensures SelectControls(false, vm) != NoControls ==> SelectControls(false, StopDownload(vm, url).model) == DownloadOnly
  {
  }

  /** A successful load replaces whatever the view showed by the image, and the controls disappear. */
  lemma SuccessShowsContent(vm: ViewModel, image: Image, slots: Slots, automaticDownload: bool)
    ensures SelectSlot(CompleteDownload(vm, Success(image)), slots) == ContentSlot(image)
    ensures SelectControls(automaticDownload, CompleteDownload(vm, Success(image))) == NoControls
  {
  }

  /**
   * A newly created view model has no image and is idle: an automatic view starts its
   * download on appearing, a manual one offers the download button, and the main slot shows
   * the placeholder or the empty text.
   */
  lemma FreshViewModel(url: Url, slots: Slots)
    ensures OnAppear(true, DefaultViewModel, url) == Some(StartDownload(DefaultViewModel, url))
    ensures OnAppear(false, DefaultViewModel, url) == None
    ensures SelectControls(false, DefaultViewModel) == DownloadOnly
    ensures SelectSlot(DefaultViewModel, slots) == (if slots.hasPlaceholder then PlaceholderSlot else EmptyText)
  {
  }

  /** A failed load of a view without an image shows the error view, or the placeholder, or nothing. */
  lemma FailureShowsErrorSlot(vm: ViewModel, error: ImageLoaderError, slots: Slots)
    requires vm.image.None?
    ensures SelectSlot(CompleteDownload(vm, Failure(error)), slots) in {ErrorSlot, PlaceholderSlot, NothingShown}
  {
  }
}

=== FILE: view_model_store.dfy ===
/**
 * The bounded store of per-URL view models: a map plus an access order, least recently
 * used first. A miss appends a new model and evicts from the front until the count is
 * within the limit; a hit moves its URL to the back and never evicts.
 */
module ViewModelStore {
  import opened Basics

  const DefaultCacheLimit: int := 100

  /** The limit can only be changed while the current limit exceeds this value. */
  const LimitChangeThreshold: int := 50

  /** A reference to a view-model object: distinct references are distinct objects. */
  datatype ViewModelRef = ViewModelRef(id: nat)

  /** The store; `nextRef` is the reference the next new view model receives. */
  datatype Store = Store(viewModels: map<Url, ViewModelRef>, accessOrder: seq<Url>, cacheLimit: int, nextRef: nat)

  /** The store after a lookup, and the view model the lookup returned. */
  datatype Lookup = Lookup(store: Store, model: ViewModelRef)

  function Elements(q: seq<Url>): set<Url> {
    set u | u in q
  }

  predicate NoDuplicates(q: seq<Url>) {
    forall i, j :: 0 <= i < j < |q| ==> q[i] != q[j]
  }

  /** The map's keys are exactly the URLs in the access order, each listed once; references are issued fresh. */
  predicate Valid(s: Store) {
    && s.viewModels.Keys == Elements(s.accessOrder)
    && NoDuplicates(s.accessOrder)
    && (forall u :: u in s.viewModels ==> s.viewModels[u].id < s.nextRef)
  }

  function Initial(): (s: Store)
    ensures Valid(s)
    ensures s.cacheLimit == 100 && |s.viewModels| == 0 && s.accessOrder == []
  {
    Store(map[], [], DefaultCacheLimit, 0)
  }

  /** A duplicate-free sequence has as many elements as its length. */
  lemma {:induction false} DistinctCount(q: seq<Url>)
    requires NoDuplicates(q)
    ensures |Elements(q)| == |q|
  {
    if |q| > 0 {
      DistinctCount(q[1..]);
      assert Elements(q) == {q[0]} + Elements(q[1..]);
      assert q[0] !in Elements(q[1..]);
    }
  }

  lemma ElementsOfAppend(a: seq<Url>, b: seq<Url>)
    ensures Elements(a + b) == Elements(a) + Elements(b)
  {
    assert forall x :: x in a + b <==> x in a || x in b;
  }

  lemma ElementsOfFront(q: seq<Url>)
    requires |q| > 0
    ensures Elements(q) == {q[0]} + Elements(q[1..])
  {
    ElementsOfAppend([q[0]], q[1..]);
    assert [q[0]] + q[1..] == q;
  }

  /** The sequence with every occurrence of `u` left out, the others in their original order. */
  function Without(q: seq<Url>, u: Url): (r: seq<Url>)
    ensures Elements(r) == Elements(q) - {u}
    ensures |r| <= |q|
  {
    if |q| == 0 then []
    else
      var head := if q[0] == u then [] else [q[0]];
      var rest := Without(q[1..], u);
      ElementsOfFront(q);
      ElementsOfAppend(head, rest);
      head + rest
  }

  lemma {:induction false} WithoutPreservesDistinct(q: seq<Url>, u: Url)
    requires NoDuplicates(q)
    ensures NoDuplicates(Without(q, u))
  {
    if |q| > 0 {
      WithoutPreservesDistinct(q[1..], u);
      var rest := Without(q[1..], u);
      assert q[0] !in Elements(rest);
    }
  }

  lemma {:induction false} WithoutAbsent(q: seq<Url>, u: Url)
    requires u !in q
    ensures Without(q, u) == q
  {
    if |q| > 0 {
      WithoutAbsent(q[1..], u);
    }
  }

  /** Finding the first index of `u` and removing it, as the store does on a hit. */
  function RemoveFirst(q: seq<Url>, u: Url): (r: seq<Url>)
    ensures u in q ==> |r| == |q| - 1
    ensures u !in q ==> r == q
  {
    if |q| == 0 then q
    else if q[0] == u then q[1..]
    else [q[0]] + RemoveFirst(q[1..], u)
  }

  /** On a duplicate-free order, removing the first occurrence is removing the URL altogether. */
  lemma {:induction false} RemoveFirstIsWithout(q: seq<Url>, u: Url)
    requires NoDuplicates(q)
    ensures RemoveFirst(q, u) == Without(q, u)
  {
    if |q| > 0 {
      if q[0] == u {
        assert u !in q[1..];
        WithoutAbsent(q[1..], u);
      } else {
        RemoveFirstIsWithout(q[1..], u);
      }
    }
  }

  /** How many entries a miss must evict from an order of length n under a limit. */
  function Overflow(n: nat, limit: int): (k: nat)
    requires limit >= 0
    ensures k <= n && n - k <= limit
    ensures k == 0 || n - k == limit
  {
    if n > limit then n - limit else 0
  }

  /** Dropping the front entry leaves one entry less to evict. */
  lemma OverflowAfterDrop(q: seq<Url>, limit: int)
    requires limit >= 0 && |q| > limit
    ensures q[1..][Overflow(|q| - 1, limit)..] == q[Overflow(|q|, limit)..]
  {
  }

  /** The store with its least recently used entry evicted. */
  function DropFront(s: Store): (r: Store)
    requires Valid(s) && |s.accessOrder| > 0
    ensures Valid(r)
    ensures r.accessOrder == s.accessOrder[1..]
    ensures r.viewModels == s.viewModels - {s.accessOrder[0]}
    ensures r.cacheLimit == s.cacheLimit && r.nextRef == s.nextRef
  {
    var q := s.accessOrder;
    ElementsOfFront(q);
    assert q[0] !in Elements(q[1..]);
    s.(viewModels := s.viewModels - {q[0]}, accessOrder := q[1..])
  }

  /**
   * Evicts from the front of the access order while the count exceeds the limit.
   * The loop only ends because the limit is non-negative.
   */
  function MaintainCacheLimit(s: Store): (r: Store)
    requires Valid(s) && s.cacheLimit >= 0
    ensures Valid(r)
    ensures r.cacheLimit == s.cacheLimit && r.nextRef == s.nextRef
    ensures r.accessOrder == s.accessOrder[Overflow(|s.accessOrder|, s.cacheLimit)..]
    ensures forall u :: u in r.viewModels ==> u in s.viewModels && r.viewModels[u] == s.viewModels[u]
    decreases |s.accessOrder|
  {
    DistinctCount(s.accessOrder);
    if |s.viewModels| > s.cacheLimit then
      if |s.accessOrder| > 0 then
        var next := DropFront(s);
        OverflowAfterDrop(s.accessOrder, s.cacheLimit);
        MaintainCacheLimit(next)
      else
        assert false; s
    else
      s
  }

  /** After eviction the count is within the limit, and a store already within it is left alone. */
  lemma MaintainCacheLimitBound(s: Store)
    requires Valid(s) && s.cacheLimit >= 0
    ensures |MaintainCacheLimit(s).viewModels| <= s.cacheLimit
    ensures |s.viewModels| <= s.cacheLimit ==> MaintainCacheLimit(s) == s
  {
    var r := MaintainCacheLimit(s);
    DistinctCount(r.accessOrder);
    DistinctCount(s.accessOrder);
    assert |r.viewModels| == |r.viewModels.Keys|;
    if |s.viewModels| <= s.cacheLimit {
      assert r.accessOrder == s.accessOrder;
      assert r.viewModels == s.viewModels;
    }
  }

  /** The hit path: the URL moves to the back of the access order. */
  function Touch(s: Store, url: Url): (r: Store)
    requires Valid(s) && url in s.viewModels
    ensures Valid(r)
    ensures r.viewModels == s.viewModels && r.cacheLimit == s.cacheLimit && r.nextRef == s.nextRef
    ensures r.accessOrder == Without(s.accessOrder, url) + [url]
  {
    var order := RemoveFirst(s.accessOrder, url);
    RemoveFirstIsWithout(s.accessOrder, url);
    WithoutPreservesDistinct(s.accessOrder, url);
    ElementsOfAppend(order, [url]);
    assert url !in Elements(order);
    s.(accessOrder := order + [url])
  }

  /** The miss path before eviction: a new model under a fresh reference, appended last. */
  function Insert(s: Store, url: Url): (r: Store)
    requires Valid(s) && url !in s.viewModels
    ensures Valid(r)
    ensures r.viewModels == s.viewModels[url := ViewModelRef(s.nextRef)]
    ensures r.accessOrder == s.accessOrder + [url]
    ensures r.cacheLimit == s.cacheLimit && r.nextRef == s.nextRef + 1
    ensures forall u :: u in s.viewModels ==> s.viewModels[u] != ViewModelRef(s.nextRef)
  {
    ElementsOfAppend(s.accessOrder, [url]);
    s.(viewModels := s.viewModels[url := ViewModelRef(s.nextRef)], accessOrder := s.accessOrder + [url], nextRef := s.nextRef + 1)
  }

  /**
   * The view model for a URL. A hit returns the stored model and moves the URL to the back.
   * A miss appends a new default model and then enforces the limit.
   */
  function ViewModelFor(s: Store, url: Url): (r: Lookup)
    requires Valid(s)
    // Only a miss runs the eviction loop, which ends only under a non-negative limit.
    requires url !in s.viewModels ==> s.cacheLimit >= 0
    ensures Valid(r.store)
    ensures r.store.cacheLimit == s.cacheLimit
    // References are never reissued: a miss takes the next unused one, a hit uses none.
    ensures r.store.nextRef >= s.nextRef
    ensures url in s.viewModels ==> r.store.nextRef == s.nextRef
    ensures url !in s.viewModels ==> s.nextRef <= r.model.id < r.store.nextRef
    // Hit: same model, same map, URL moved to the back, others in their old order.
    ensures url in s.viewModels ==>
      && r.model == s.viewModels[url]
      && r.store.viewModels == s.viewModels
      && r.store.accessOrder == Without(s.accessOrder, url) + [url]
    // Miss: a model never issued before; evictions come from the front of the old order.
    ensures url !in s.viewModels ==>
      && (forall u :: u in s.viewModels ==> s.viewModels[u] != r.model)
      && r.store.accessOrder == (s.accessOrder + [url])[Overflow(|s.accessOrder| + 1, s.cacheLimit)..]
      && |r.store.viewModels| <= s.cacheLimit
      && (forall u :: u in r.store.viewModels && u != url ==> r.store.viewModels[u] == s.viewModels[u])
  {
    if url in s.viewModels then
      Lookup(Touch(s, url), s.viewModels[url])
    else
      InsertThenEvict(s, url);
      Lookup(MaintainCacheLimit(Insert(s, url)), ViewModelRef(s.nextRef))
  }

  /** The miss path: insertion followed by eviction keeps the old models of the survivors. */
  lemma InsertThenEvict(s: Store, url: Url)
    requires Valid(s) && s.cacheLimit >= 0 && url !in s.viewModels
    ensures var r := MaintainCacheLimit(Insert(s, url));
      && r.accessOrder == (s.accessOrder + [url])[Overflow(|s.accessOrder| + 1, s.cacheLimit)..]
      && |r.viewModels| <= s.cacheLimit
      && (forall u :: u in r.viewModels && u != url ==> r.viewModels[u] == s.viewModels[u])
  {
    var grown := Insert(s, url);
    var r := MaintainCacheLimit(grown);
    MaintainCacheLimitBound(grown);
    assert grown.accessOrder == s.accessOrder + [url];
    forall u | u in r.viewModels && u != url
      ensures r.viewModels[u] == s.viewModels[u]
    {
      assert r.viewModels[u] == grown.viewModels[u];
    }
  }

  /** Installs any new limit, negative ones included, but only while the current limit exceeds 50. */
  function SetCacheLimit(s: Store, limit: int): (r: Store)
    ensures r.viewModels == s.viewModels && r.accessOrder == s.accessOrder && r.nextRef == s.nextRef
    ensures s.cacheLimit > LimitChangeThreshold ==> r.cacheLimit == limit
    ensures s.cacheLimit <= LimitChangeThreshold ==> r == s
  {
    if s.cacheLimit > LimitChangeThreshold then s.(cacheLimit := limit) else s
  }

  function ClearStore(s: Store): (r: Store)
    ensures Valid(r)
    ensures |r.viewModels| == 0 && r.accessOrder == []
    ensures r.cacheLimit == s.cacheLimit && r.nextRef == s.nextRef
  {
    s.(viewModels := map[], accessOrder := [])
  }

  /** The guard tests the old limit: from the default, a negative limit is accepted. */
  lemma NegativeLimitAccepted()
    ensures SetCacheLimit(Initial(), -1).cacheLimit == -1
  {
  }

  /** Once the limit is 50 or less, no later change of limit takes effect. */
  lemma {:induction false} LimitFrozenAtOrBelowThreshold(s: Store, limits: seq<int>)
    requires s.cacheLimit <= LimitChangeThreshold
    ensures SetCacheLimits(s, limits) == s
    decreases |limits|
  {
    if |limits| > 0 {
      LimitFrozenAtOrBelowThreshold(SetCacheLimit(s, limits[0]), limits[1..]);
    }
  }

  /** A series of limit changes, applied in order. */
  function SetCacheLimits(s: Store, limits: seq<int>): Store
    decreases |limits|
  {
    if |limits| == 0 then s else SetCacheLimits(SetCacheLimit(s, limits[0]), limits[1..])
  }

  /** A lowered limit is not enforced by hits; the next miss brings the count within it. */
  lemma LoweredLimitEnforcedAtNextMiss(s: Store, limit: int, hit: Url, miss: Url)
    requires Valid(s) && s.cacheLimit > LimitChangeThreshold && 0 <= limit < |s.viewModels|
    requires hit in s.viewModels && miss !in s.viewModels
    ensures |ViewModelFor(SetCacheLimit(s, limit), hit).store.viewModels| == |s.viewModels|
    ensures |ViewModelFor(SetCacheLimit(s, limit), miss).store.viewModels| <= limit
  {
  }

  /** With room for at least one model, a just-requested URL is the most recent and survives its own eviction. */
  lemma RequestedSurvives(s: Store, url: Url)
    requires Valid(s) && s.cacheLimit >= 1
    ensures url in ViewModelFor(s, url).store.viewModels
    ensures ViewModelFor(s, url).store.viewModels[url] == ViewModelFor(s, url).model
    ensures var order := ViewModelFor(s, url).store.accessOrder; |order| > 0 && order[|order| - 1] == url
  {
    var r := ViewModelFor(s, url);
    if url !in s.viewModels {
      var grown := Insert(s, url);
      var k := Overflow(|grown.accessOrder|, s.cacheLimit);
      assert r.store == MaintainCacheLimit(grown);
      assert |r.store.accessOrder| == |grown.accessOrder| - k >= 1;
      assert r.store.accessOrder[|r.store.accessOrder| - 1] == url;
      assert url in Elements(r.store.accessOrder);
    }
  }
}
